=== FILE: README.md ===
# pom-cli `id`: a verified model

The `id` command of pom-cli sets or prints a Maven project's coordinates.

**Without a token**, it prints the POM's `packaging group:artifact:version` line. The group and the version fall back to the `<parent>` ones when the POM has none. If the POM file does not exist, it reports that and exits with 1.

**With a token** `group:artifact[:version]`, it runs `updatePom` and then prints the line:

1. Loads the POM, or has `NewPom` create one.
2. Applies the token:
   - one piece sets the artifact;
   - two pieces set the group and the artifact;
   - three pieces also set the version, and everything after the second colon is the version;
   - with fewer than three pieces and a `<parent>` present, the POM's own version is cleared;
   - an artifact `.` is replaced by the last name of the POM file's absolute directory, as written.
3. Applies `--as <packaging>`.
4. Unless `--standalone` is set or `--add-module=false` is given, registers the module with its parent:
   - it appends `/pom.xml` to the parent's `relativePath` when that does not end in `.xml`, then resolves the result against the canonical directory of the POM;
   - it normalises the result;
   - if a file exists there, it adds the child's relative directory to the parent's `<modules>` unless it is already listed, and writes the parent back.
5. Writes the child POM.

The model:

- `Pom` is the POM as a value. `Model` is a class whose fields `parseId`, `--as` and `addModule` update in place.
- `Strings` models Java's `split(":", 3)` exactly:
  - no colon gives one piece;
  - empty pieces are kept;
  - the third piece keeps any later colons.
- `Paths` models `java.nio.file` on Unix:
  - paths are parsed into names;
  - `resolve`, `normalize` and `relativize` work on absolute name sequences;
  - `..` at the root is dropped.
- `Env` holds everything the command reads from outside:
  - the child file (absent, readable or unreadable);
  - the model `NewPom` would create;
  - the absolute and canonical directories of the POM file;
  - the other POM files by normalised absolute path;
  - the targets whose writing fails.
- The command's effect is the ordered log of writes it makes. A failing read or write ends the run with an uncaught exception, modelled as `Aborted`.

Edge cases the model keeps as the code has them:

- An empty token is not rejected. It sets the artifactId to `""`.
- A token such as `g:` also sets the artifactId to `""`. So the artifactId can be empty after an update.
- The `.` artifact takes the last name of the absolute directory exactly as written, without normalising it (see "## Findings").
- An empty `relativePath` (Maven's `<relativePath/>`) becomes the absolute `/pom.xml`. Registration then looks for a parent at the file system root (`ParentLocator.EmptyRelativePathLooksAtRoot`).

## Model

| member | source | states |
|---|---|---|
| Strings.IndexOf | src/main/java/com/github/andirady/pomcli/IdCommand.java:190 | the first position of the separator, or None exactly when it does not occur |
| Strings.SplitLimit3 | src/main/java/com/github/andirady/pomcli/IdCommand.java:190 | `split(sep, 3)`: one to three pieces that join back to the input; no piece but the last contains the separator, and the last has none when there are fewer than three |
| Strings.SplitOne | src/main/java/com/github/andirady/pomcli/IdCommand.java:190 | a string without the separator splits into itself alone |
| Strings.SplitTwo | src/main/java/com/github/andirady/pomcli/IdCommand.java:190 | `g:a` splits into exactly `[g, a]` |
| Strings.SplitThree | src/main/java/com/github/andirady/pomcli/IdCommand.java:190 | `g:a:v` splits into `[g, a, v]`, where v may hold further colons |
| Paths.PathOf | src/main/java/com/github/andirady/pomcli/IdCommand.java:157 | `Path.of`: absolute exactly when the string starts with `/`; only non-empty names without `/`; a string without `/` is one name (none if empty) |
| Paths.Resolve | src/main/java/com/github/andirady/pomcli/IdCommand.java:157 | `resolve`: an absolute path replaces the base, a relative one is appended to it |
| Paths.Relativize | src/main/java/com/github/andirady/pomcli/IdCommand.java:164 | `relativize`: its length is the names left in `from` plus those of `to` after the common prefix; empty exactly when the two paths are equal |
| Paths.RelativizeDescend | src/main/java/com/github/andirady/pomcli/IdCommand.java:164 | relativizing a path below `from` gives the names below it |
| Paths.LastIndexOf | src/main/java/com/github/andirady/pomcli/IdCommand.java:157 | the last position of the separator, or None exactly when it does not occur |
| Paths.Names | src/main/java/com/github/andirady/pomcli/IdCommand.java:157 | parsing a path string gives only non-empty names without a separator |
| Paths.NamesOfJoin | src/main/java/com/github/andirady/pomcli/IdCommand.java:164 | parsing the string form of a relative path gives back its names (toString then resolve is lossless) |
| Paths.LastNameEndsWith | src/main/java/com/github/andirady/pomcli/IdCommand.java:145-148 | a path string ending in `.xml` has a last name that ends in `.xml` |
| Paths.Normalize | src/main/java/com/github/andirady/pomcli/IdCommand.java:157 | `normalize()` on an absolute path: never longer, and nothing left to collapse (no `.`, `..` or empty name) |
| Paths.NormalizeClean | src/main/java/com/github/andirady/pomcli/IdCommand.java:157 | normalising a path with nothing to collapse changes nothing |
| Paths.NormalizeIdempotent | src/main/java/com/github/andirady/pomcli/IdCommand.java:157 | normalising twice is normalising once |
| Paths.NormalizeAppend | src/main/java/com/github/andirady/pomcli/IdCommand.java:157 | clean names appended to a path survive normalisation unchanged |
| Paths.Ups | src/main/java/com/github/andirady/pomcli/IdCommand.java:164 | n names, each `..` |
| Paths.NormalizeUps | src/main/java/com/github/andirady/pomcli/IdCommand.java:157 | n `..` names after a normalised path remove exactly its last n names |
| Paths.CommonPrefix | src/main/java/com/github/andirady/pomcli/IdCommand.java:164 | the longest common prefix: both paths agree up to it and differ right after it |
| Paths.RelativizeNamed | src/main/java/com/github/andirady/pomcli/IdCommand.java:164 | a relativized path between normalised paths holds only `..` and proper names (never empty, `.` or containing `/`) |
| Paths.RelativizeRoundTrip | src/main/java/com/github/andirady/pomcli/IdCommand.java:164 | `relativize` inverts `resolve` then `normalize`: resolving `from.relativize(to)` against `from` leads back to `to` |
| MavenModel.Model.constructor | src/main/java/com/github/andirady/pomcli/IdCommand.java:104-105 | a model read from a file holds that file's POM |
| MavenModel.Model.AddModule | src/main/java/com/github/andirady/pomcli/IdCommand.java:166 | `addModule` appends the module to `<modules>` and changes nothing else |
| IdentityParser.DirNameAsWritten | src/main/java/com/github/andirady/pomcli/IdCommand.java:207 | exactly the last name of the absolute directory as written, which may be `.` or `..`; None exactly when the directory is the root (no names) |
| IdentityParser.DirName | src/main/java/com/github/andirady/pomcli/IdCommand.java:207 | the directory's real name after normalisation (never empty, `.` or `..`); equal to the as-written name when the directory is already normalised |
| IdentityParser.IdApplied | src/main/java/com/github/andirady/pomcli/IdCommand.java:189-209 | parseId fails exactly when the artifact is `.` and there is no directory name; it keeps packaging, parent and modules, always sets an artifactId, and drops the version under a parent for fewer than three pieces |
| IdentityParser.GroupArtifactToken | src/main/java/com/github/andirady/pomcli/IdCommand.java:192-208 | `g:a` sets group and artifact (a `.` artifact taking the directory name); the version is cleared under a parent and kept otherwise |
| IdentityParser.ArtifactOnlyToken | src/main/java/com/github/andirady/pomcli/IdCommand.java:195-208 | `a` sets only the artifact (a `.` taking the directory name) and leaves the group alone; the version is as for `g:a` |
| IdentityParser.FullToken | src/main/java/com/github/andirady/pomcli/IdCommand.java:192-208 | `g:a:v` sets all three coordinates (a `.` artifact taking the directory name), whatever the parent |
| IdentityParser.DotArtifactTakesWrittenName | src/main/java/com/github/andirady/pomcli/IdCommand.java:206-208 | what the command does: a `.` artifact becomes the absolute directory's last name as written; it fails exactly when the POM sits at the root |
| IdentityParser.DotArtifactTakesDirName | src/main/java/com/github/andirady/pomcli/IdCommand.java:206-208 | the corrected behaviour: a `.` artifact becomes the directory's last normalised name, a proper name; it fails only when the POM sits at the root |
| IdentityParser.DotArtifactAsWritten | src/main/java/com/github/andirady/pomcli/IdCommand.java:206-208 | with `-f ./pom.xml` the as-written name leaves the artifactId `.`, while the normalised name gives `widget` |
| IdentityParser.IdAppliedIdempotent | src/main/java/com/github/andirady/pomcli/IdCommand.java:189-209 | applying the same token to its own result, whatever the packaging, changes nothing |
| IdentityParser.ParseId | src/main/java/com/github/andirady/pomcli/IdCommand.java:189-209 | the setters applied in place leave the model equal to `IdApplied` of the old model with the as-written directory name, and fail exactly when `IdApplied` does |
| ProjectSummary.EffectiveGroup | src/main/java/com/github/andirady/pomcli/IdCommand.java:85-91 | the POM's own groupId if present, else the parent's; absent only when neither has one |
| ProjectSummary.EffectiveVersion | src/main/java/com/github/andirady/pomcli/IdCommand.java:86-95 | the POM's own version if present, else the parent's; absent only when neither has one |
| ProjectSummary.Coordinates | src/main/java/com/github/andirady/pomcli/IdCommand.java:96 | the effective group, artifact and effective version joined by `:`, with `null` for a missing one |
| ProjectSummary.ProjectId | src/main/java/com/github/andirady/pomcli/IdCommand.java:96 | the packaging, one space, then the coordinates |
| ProjectSummary.CoordinatesSplit | src/main/java/com/github/andirady/pomcli/IdCommand.java:96 | the printed `g:a:v` splits back into the effective group, the artifact and the effective version |
| ProjectSummary.SummaryStable | src/main/java/com/github/andirady/pomcli/IdCommand.java:76-97 | when neither the effective group nor the artifact contains `:` and the artifact is not `.`, feeding the printed coordinates back to `id` succeeds and leaves the printed line unchanged (a `.` artifact would be replaced by the directory name) |
| ParentLocator.WithPomSuffix | src/main/java/com/github/andirady/pomcli/IdCommand.java:145-148 | the result ends in `.xml`: unchanged if it already did, else with `/pom.xml` appended |
| ParentLocator.ParentPomPath | src/main/java/com/github/andirady/pomcli/IdCommand.java:154-157 | the resolved and normalised parent path is normalised (no empty, `.` or `..` name), non-empty, and names a `.xml` file |
| ParentLocator.ParentLocation | src/main/java/com/github/andirady/pomcli/IdCommand.java:141-157 | a location exists exactly when the POM has a parent with a relativePath |
| ParentLocator.ModuleId | src/main/java/com/github/andirady/pomcli/IdCommand.java:164 | the module id, resolved against the parent POM's directory and normalised, leads back to the child's canonical directory |
| ParentLocator.ModuleIdBelow | src/main/java/com/github/andirady/pomcli/IdCommand.java:164 | a child directory below the parent POM's directory has as module id the `/`-joined names below it |
| ParentLocator.ParentOneUp | src/main/java/com/github/andirady/pomcli/IdCommand.java:144-164 | relativePath `..` finds `pom.xml` one directory up, and the module id is the child directory's own name |
| ParentLocator.EmptyRelativePathLooksAtRoot | src/main/java/com/github/andirady/pomcli/IdCommand.java:145-157 | an empty relativePath makes the lookup `/pom.xml`, whatever the child's directory |
| ModuleReconciler.RegisterAt | src/main/java/com/github/andirady/pomcli/IdCommand.java:160-171 | no parent file: nothing written; failure only for an unreadable parent, or an unwritable parent that lacks the module; a readable parent that already lists the module gives no write and no failure; a write appends the module id, which was missing; a write goes only to a writable parent; no write means the id is already listed |
| ModuleReconciler.Reconciliation | src/main/java/com/github/andirady/pomcli/IdCommand.java:140-178 | nothing to do without a parent or relativePath; any write goes to a parent POM |
| ModuleReconciler.Occurrences | src/main/java/com/github/andirady/pomcli/IdCommand.java:165 | zero exactly when the module is not listed |
| ModuleReconciler.RegistrationIdempotent | src/main/java/com/github/andirady/pomcli/IdCommand.java:165-168 | after the parent is written, a second registration writes nothing, and the module is listed exactly once |
| ModuleReconciler.ReconciliationIdempotent | src/main/java/com/github/andirady/pomcli/IdCommand.java:140-178 | the registration step, run again on the files it left, writes nothing |
| ModuleReconciler.EnsureParentPomHasThisModule | src/main/java/com/github/andirady/pomcli/IdCommand.java:140-178 | the method succeeds exactly when `Reconciliation` does, and writes exactly the parent it computes |
| IdCommand.Loaded | src/main/java/com/github/andirady/pomcli/IdCommand.java:100-112 | the model read from the child file when it exists, else NewPom's model |
| IdCommand.UpdatedChild | src/main/java/com/github/andirady/pomcli/IdCommand.java:100-118 | the child after loading, parseId and `--as` exists exactly when the file is readable (or absent) and parseId succeeds; the packaging is `--as` if given, else kept; the coordinates are parseId's, with a `.` artifact taking the as-written directory name |
| IdCommand.Update | src/main/java/com/github/andirady/pomcli/IdCommand.java:99-131 | at most two writes: the parent first, and only with `--add-module` and without `--standalone`; a finished run ends with the child write of `UpdatedChild`; a failed run never writes the child; a failed registration (unreadable or unwritable parent) ends the run with no writes at all; when the child write fails after registration wrote the parent, the parent write stays in the log and the run fails |
| IdCommand.UpdateFinishes | src/main/java/com/github/andirady/pomcli/IdCommand.java:120-130 | once the child and the registration step are known, the log is the parent write (if any) followed by the child write |
| IdCommand.ApplyWrite | src/main/java/com/github/andirady/pomcli/IdCommand.java:180-187 | writing a POM makes the target hold that POM (the child file, or the parent file at its path) and leaves the other file and everything else unchanged |
| IdCommand.Applied | src/main/java/com/github/andirady/pomcli/IdCommand.java:180-187 | applying a log of writes changes only file contents |
| IdCommand.ChildAfterParent | src/main/java/com/github/andirady/pomcli/IdCommand.java:120-130 | writing the parent (if any) and then the child leaves the child holding its model and the parent file holding the parent's |
| IdCommand.AppliedRun | src/main/java/com/github/andirady/pomcli/IdCommand.java:120-130 | after a finished run the child file holds the new model, and the parent file holds what registration wrote |
| IdCommand.UpdatedChildStable | src/main/java/com/github/andirady/pomcli/IdCommand.java:114-118 | re-reading the written child and applying the same token and `--as` gives the same model |
| IdCommand.SecondRunWritesOnlyChild | src/main/java/com/github/andirady/pomcli/IdCommand.java:99-131 | running the same command again writes only the child, with the same content: registration is not repeated |
| IdCommand.NewProject | src/main/java/com/github/andirady/pomcli/IdCommand.java:99-131 | `id g:a:v` without a POM file writes NewPom's model with those coordinates, and nothing else |
| IdCommand.ChildRegistersWithParent | src/main/java/com/github/andirady/pomcli/IdCommand.java:99-178 | `id g:a` on a child whose relativePath is `..`: `../pom.xml` gains the directory name and is written first, then the child, with its version cleared |
| IdCommand.UpdatePom | src/main/java/com/github/andirady/pomcli/IdCommand.java:99-131 | the imperative update makes exactly the writes of `Update`, in order, and finishes exactly when `Update` does |
| IdCommand.Call | src/main/java/com/github/andirady/pomcli/IdCommand.java:61-74 | exit 1 with no writes exactly when there is no token and no file; without a token, the existing file's line is printed and nothing is written; with a token, the writes are `Update`'s and the printed line is that of the child written |
| IdCommand.UpdateAndReport | src/main/java/com/github/andirady/pomcli/IdCommand.java:63-71 | the token branch of call: `Update`'s writes, then the line of the child just written |

## Left out

- Reading and writing XML (`DefaultModelReader` and `DefaultModelWriter`) are not modelled. A readable file is its `Pom` value, an unreadable one fails with an exception. The line printed after an update is computed from the model just written, so the model assumes that writing and reading back a POM is lossless.
- `NewPom` is a black box: the model it creates is an input. So the default packaging `jar` of a new project is not derived here.
- `getCanonicalFile` (symbolic links, the current directory) is not modelled: the canonical directory is an input, and so is the absolute directory `toAbsolutePath` gives.
- Whether a file exists is read from the map of POM files (`Env.files`), without a file system.
- The child file and a parent file are modelled as distinct targets. A `relativePath` that leads back to the child's own file is not modelled.
- The `NullPointerException` from calling `toString()` on the null `getFileName()`, which happens only when the POM file's absolute directory is the root, is modelled as the error `NoDirectoryName`.
- Paths use `/` as the only separator, as on Unix. Windows paths are not modelled.
- Command-line parsing (picocli), the text printed for a missing file, ANSI colours and logging are not modelled. Only the exit code and the printed project line are kept.
- Exceptions are not distinguished by type: a failed read or write is `Aborted` with the writes made before it.

## Findings

| source | as written | input that shows it | evidently intended | confidence | as-written member | corrected member |
|---|---|---|---|---|---|---|
| src/main/java/com/github/andirady/pomcli/IdCommand.java:206-208 | the directory name comes from `toAbsolutePath().getParent().getFileName()`, which is not normalised | `id .` with `-f ./pom.xml` (absolute directory `/home/widget/.`): the artifactId stays `.`; `-f ../pom.xml` gives `..` the same way | the `.` artifact becomes the name of the directory that holds the POM (`widget`) | medium, not executed | IdentityParser.DirNameAsWritten (exhibited by IdentityParser.DotArtifactAsWritten; the command model uses it) | IdentityParser.DirName (with IdentityParser.DotArtifactTakesDirName) |

=== FILE: id_command.dfy ===
/**
 * IdCommand.call and updatePom: report the project id, or load (or
 * create) the POM, apply the token and --as, register the module with
 * the parent, and write the POM; every write is recorded in order.
 */
module IdCommand {
  import opened Wrappers
  import opened Paths
  import opened MavenModel
  import opened IdentityParser
  import opened ProjectSummary
  import opened ParentLocator
  import opened ModuleReconciler
  import opened Storage

  /** The command line: the optional token, --as, --standalone and --add-module (default true). */
  datatype Options = Options(id: Option<string>, packaging: Option<string>, standalone: bool, addModule: bool)

  /**
   * What the command finds: the POM file at --file (None: no such file),
   * the model NewPom creates for it, the names of the file's absolute
   * directory (as toAbsolutePath gives it, not normalized) and of its
   * canonical directory, the other POM files by canonical path, and the
   * targets whose writing fails.
   */
  datatype Env = Env(
    child: Option<Stored>,
    newPom: Pom,
    absoluteDir: seq<string>,
    canonicalDir: seq<string>,
    files: map<seq<string>, Stored>,
    readOnly: set<Target>)

  /** Parsed paths have only non-empty names; a canonical path has no "." or "..". */
  predicate ValidEnv(env: Env) {
    Named(env.absoluteDir) && Clean(env.canonicalDir)
  }

  /** The writes of an update, in order, and whether it finished. */
  datatype Run = Run(writes: seq<Write>, ok: bool)

  /** An exit code with the writes made and the line printed, or an uncaught exception. */
  datatype Outcome =
    | Exit(code: int, writes: seq<Write>, summary: Option<string>)
    | Aborted(writes: seq<Write>)

  /** The model updatePom starts from: the existing file's, else NewPom's. */
  function Loaded(env: Env): (d: Pom)
    requires env.child != Some(Unreadable)
    ensures env.child.Some? ==> Some(Readable(d)) == env.child
    ensures env.child.None? ==> d == env.newPom
  {
    if env.child.Some? then env.child.value.pom else env.newPom
  }

  /** The child model after parseId and --as; None when reading or parsing aborts. */
  function UpdatedChild(token: string, opts: Options, env: Env): (r: Option<Pom>)
    requires ValidEnv(env)
    ensures r.Some? <==> env.child != Some(Unreadable) && IdApplied(Loaded(env), token, DirNameAsWritten(env.absoluteDir)).Ok?
    ensures r.Some? ==> r.value.packaging == if opts.packaging.Some? then opts.packaging.value else Loaded(env).packaging
    ensures r.Some? ==> r.value.(packaging := Loaded(env).packaging) == IdApplied(Loaded(env), token, DirNameAsWritten(env.absoluteDir)).value
  {
    if env.child == Some(Unreadable) then None
    else match IdApplied(Loaded(env), token, DirNameAsWritten(env.absoluteDir))
      case Err(_) => None
      case Ok(c) => Some(if opts.packaging.Some? then c.(packaging := opts.packaging.value) else c)
  }

  /**
   * The writes of updatePom. The parent is written before the child and
   * only when registration is asked for; a failure before the child write
   * leaves the child file untouched.
   */
  function Update(token: string, opts: Options, env: Env): (run: Run)
    requires ValidEnv(env)
    ensures |run.writes| <= 2
    ensures |run.writes| == 2 ==> run.writes[0].target.ParentPom?
    ensures run.ok ==> && UpdatedChild(token, opts, env).Some?
                       && run.writes != []
                       && run.writes[|run.writes| - 1] == Write(ChildPom, UpdatedChild(token, opts, env).value)
    ensures !run.ok ==> |run.writes| <= 1 && (run.writes != [] ==> run.writes[0].target.ParentPom?)
    ensures run.writes != [] && run.writes[0].target.ParentPom? ==> opts.addModule && !opts.standalone
    ensures UpdatedChild(token, opts, env).None? ==> run == Run([], false)
    ensures run.ok ==> ChildPom !in env.readOnly
    ensures && UpdatedChild(token, opts, env).Some? && opts.addModule && !opts.standalone
            && Reconciliation(UpdatedChild(token, opts, env).value, env.canonicalDir, env.files, env.readOnly).Err?
            ==> run == Run([], false)
    ensures UpdatedChild(token, opts, env).Some? && ChildPom in env.readOnly ==>
              var c := UpdatedChild(token, opts, env).value;
              var step := if opts.addModule && !opts.standalone then Reconciliation(c, env.canonicalDir, env.files, env.readOnly) else Ok(None);
              step.Ok? ==> run == Run(if step.value.Some? then [step.value.value] else [], false)
  {
    match UpdatedChild(token, opts, env)
    case None => Run([], false)
    case Some(c) =>
      var step := if opts.addModule && !opts.standalone then Reconciliation(c, env.canonicalDir, env.files, env.readOnly) else Ok(None);
      match step
      case Err(_) => Run([], false)
      case Ok(w) =>
        var before := if w.Some? then [w.value] else [];
        if ChildPom in env.readOnly then Run(before, false)
        else Run(before + [Write(ChildPom, c)], true)
  }

  /** An update whose child model and registration step are known. */
  lemma UpdateFinishes(token: string, opts: Options, env: Env, c: Pom, w: Option<Write>)
    requires ValidEnv(env) && UpdatedChild(token, opts, env) == Some(c)
    requires opts.addModule && !opts.standalone ==> Reconciliation(c, env.canonicalDir, env.files, env.readOnly) == Ok(w)
    requires !(opts.addModule && !opts.standalone) ==> w.None?
    requires ChildPom !in env.readOnly
    ensures Update(token, opts, env) == Run(if w.Some? then [w.value, Write(ChildPom, c)] else [Write(ChildPom, c)], true)
  {
    if w.Some? {
      ParentThenChild(w.value, Write(ChildPom, c));
    } else {
      assert [] + [Write(ChildPom, c)] == [Write(ChildPom, c)];
    }
  }

  lemma ParentThenChild(parent: Write, child: Write)
    ensures [parent] + [child] == [parent, child]
  {
  }

  /** The files after one write. */
  function ApplyWrite(env: Env, w: Write): (r: Env)
    ensures r.newPom == env.newPom && r.absoluteDir == env.absoluteDir
    ensures r.canonicalDir == env.canonicalDir && r.readOnly == env.readOnly
    ensures w.target.ChildPom? ==> r.child == Some(Readable(w.pom)) && r.files == env.files
    ensures w.target.ParentPom? ==> r.files == env.files[w.target.path := Readable(w.pom)] && r.child == env.child
  {
    match w.target
    case ChildPom => env.(child := Some(Readable(w.pom)))
    case ParentPom(path) => env.(files := env.files[path := Readable(w.pom)])
  }

  /** The files after a run's writes, applied in order. */
  function Applied(env: Env, writes: seq<Write>): (r: Env)
    ensures r.newPom == env.newPom && r.absoluteDir == env.absoluteDir
    ensures r.canonicalDir == env.canonicalDir && r.readOnly == env.readOnly
  {
    if writes == [] then env
    else ApplyWrite(Applied(env, writes[..|writes| - 1]), writes[|writes| - 1])
  }

  lemma AppliedOne(env: Env, x: Write)
    ensures Applied(env, [x]) == ApplyWrite(env, x)
  {
    assert [x][..0] == [];
  }

  lemma AppliedPair(env: Env, x: Write, y: Write)
    ensures Applied(env, [x, y]) == ApplyWrite(ApplyWrite(env, x), y)
  {
    AppliedOne(env, x);
    assert [x, y][..1] == [x];
  }

  /**
   * Running the same update a second time writes the child alone, with
   * the same content, and leaves the parent as the first run left it.
   */
  lemma SecondRunWritesOnlyChild(token: string, opts: Options, env: Env)
    requires ValidEnv(env) && Update(token, opts, env).ok
    ensures Update(token, opts, Applied(env, Update(token, opts, env).writes))
         == Run([Write(ChildPom, UpdatedChild(token, opts, env).value)], true)
  {
    var c := UpdatedChild(token, opts, env).value;
    var env' := Applied(env, Update(token, opts, env).writes);
    SecondRegistration(token, opts, env);
    UpdatedChildStable(token, opts, env, env');
    UpdateFinishes(token, opts, env', c, None);
  }

  /** After a successful run the registration step finds the module listed. */
  lemma SecondRegistration(token: string, opts: Options, env: Env)
    requires ValidEnv(env) && Update(token, opts, env).ok
    ensures var env' := Applied(env, Update(token, opts, env).writes);
            var c := UpdatedChild(token, opts, env).value;
            && env'.child == Some(Readable(c))
            && (opts.addModule && !opts.standalone ==> Reconciliation(c, env'.canonicalDir, env'.files, env'.readOnly) == Ok(None))
  {
    AppliedRun(token, opts, env);
    if opts.addModule && !opts.standalone {
      ReconciliationIdempotent(UpdatedChild(token, opts, env).value, env.canonicalDir, env.files, env.readOnly);
    }
  }

  /** The files after a successful run: the child holds the new model, the parent what registration wrote. */
  lemma AppliedRun(token: string, opts: Options, env: Env)
    requires ValidEnv(env) && Update(token, opts, env).ok
    ensures var run := Update(token, opts, env);
            var c := UpdatedChild(token, opts, env).value;
            var w := Reconciliation(c, env.canonicalDir, env.files, env.readOnly);
            && (opts.addModule && !opts.standalone ==> w.Ok?)
            && Applied(env, run.writes).child == Some(Readable(c))
            && Applied(env, run.writes).files
               == if opts.addModule && !opts.standalone && w.value.Some?
                  then env.files[w.value.value.target.path := Readable(w.value.value.pom)]
                  else env.files
  {
    var c := UpdatedChild(token, opts, env).value;
    var register := opts.addModule && !opts.standalone;
    var w := if register then Reconciliation(c, env.canonicalDir, env.files, env.readOnly).value else None;
    UpdateFinishes(token, opts, env, c, w);
    ChildAfterParent(env, c, w);
  }

  /** Writing the parent (if any) and then the child leaves both files as written. */
  lemma ChildAfterParent(env: Env, c: Pom, w: Option<Write>)
    requires w.Some? ==> w.value.target.ParentPom?
    ensures var writes := if w.Some? then [w.value, Write(ChildPom, c)] else [Write(ChildPom, c)];
            && Applied(env, writes).child == Some(Readable(c))
            && Applied(env, writes).files
               == if w.Some? then env.files[w.value.target.path := Readable(w.value.pom)] else env.files
  {
    var child := Write(ChildPom, c);
    if w.Some? {
      AppliedPair(env, w.value, child);
    } else {
      AppliedOne(env, child);
    }
  }

  /** Re-applying the token to the model it produced gives that model again. */
  lemma UpdatedChildStable(token: string, opts: Options, env: Env, env': Env)
    requires ValidEnv(env) && ValidEnv(env') && UpdatedChild(token, opts, env).Some?
    requires env'.child == Some(Readable(UpdatedChild(token, opts, env).value))
    requires env'.absoluteDir == env.absoluteDir
    ensures UpdatedChild(token, opts, env') == UpdatedChild(token, opts, env)
  {
    var c := UpdatedChild(token, opts, env).value;
    var d1 := IdApplied(Loaded(env), token, DirNameAsWritten(env.absoluteDir)).value;
    IdAppliedIdempotent(Loaded(env), token, DirNameAsWritten(env.absoluteDir), c.packaging);
    assert c == d1.(packaging := c.packaging);
  }

  /**
   * A new project: `id g:a:v` (for instance com.acme:widget:1.0) without a
   * POM file writes NewPom's model with those three coordinates, and only it.
   */
  lemma NewProject(g: string, a: string, v: string, opts: Options, env: Env)
    requires ':' !in g && ':' !in a && a != "."
    requires ValidEnv(env) && env.child.None? && env.newPom.parent.None?
    requires opts.packaging.None? && ChildPom !in env.readOnly
    ensures Update(g + ":" + a + ":" + v, opts, env)
         == Run([Write(ChildPom, env.newPom.(groupId := Some(g), artifactId := Some(a), version := Some(v)))], true)
  {
    FullToken(env.newPom, g, a, v, DirNameAsWritten(env.absoluteDir));
    var c := env.newPom.(groupId := Some(g), artifactId := Some(a), version := Some(v));
    UpdateFinishes(g + ":" + a + ":" + v, opts, env, c, None);
  }

  /**
   * A child with relativePath "..": `id g:a` (for instance com.acme:widget)
   * lists the child's directory name in ../pom.xml, writes that parent
   * first, and drops the child's own version.
   */
  lemma ChildRegistersWithParent(g: string, a: string, d: Pom, p: Pom, opts: Options, env: Env)
    requires ':' !in g && ':' !in a && a != "."
    requires ValidEnv(env) && env.canonicalDir != []
    requires env.child == Some(Readable(d)) && d.parent.Some? && d.parent.value.relativePath == Some("..")
    requires opts.packaging.None? && opts.addModule && !opts.standalone
    requires var path := env.canonicalDir[..|env.canonicalDir| - 1] + ["pom.xml"];
             && path in env.files && env.files[path] == Readable(p)
             && ParentPom(path) !in env.readOnly && ChildPom !in env.readOnly
    requires env.canonicalDir[|env.canonicalDir| - 1] !in p.modules
    ensures var path := env.canonicalDir[..|env.canonicalDir| - 1] + ["pom.xml"];
            var name := env.canonicalDir[|env.canonicalDir| - 1];
            (Update(g + ":" + a, opts, env)
             == Run([Write(ParentPom(path), p.(modules := p.modules + [name])),
                     Write(ChildPom, d.(groupId := Some(g), artifactId := Some(a), version := None))], true))
  {
    var c := d.(groupId := Some(g), artifactId := Some(a), version := None);
    GroupArtifactToken(d, g, a, DirNameAsWritten(env.absoluteDir));
    var path := env.canonicalDir[..|env.canonicalDir| - 1] + ["pom.xml"];
    var w := Write(ParentPom(path), p.(modules := p.modules + [env.canonicalDir[|env.canonicalDir| - 1]]));
    ScenarioRegistration(c, p, env);
    UpdateFinishes(g + ":" + a, opts, env, c, Some(w));
  }

  lemma ScenarioRegistration(c: Pom, p: Pom, env: Env)
    requires ValidEnv(env) && env.canonicalDir != []
    requires c.parent.Some? && c.parent.value.relativePath == Some("..")
    requires var path := env.canonicalDir[..|env.canonicalDir| - 1] + ["pom.xml"];
             && path in env.files && env.files[path] == Readable(p)
             && ParentPom(path) !in env.readOnly
    requires env.canonicalDir[|env.canonicalDir| - 1] !in p.modules
    ensures var path := env.canonicalDir[..|env.canonicalDir| - 1] + ["pom.xml"];
            (Reconciliation(c, env.canonicalDir, env.files, env.readOnly)
             == Ok(Some(Write(ParentPom(path), p.(modules := p.modules + [env.canonicalDir[|env.canonicalDir| - 1]])))))
  {
    ParentOneUp(env.canonicalDir);
  }

  /** updatePom: the model loaded or created, changed in place, and written after its parent. */
  method UpdatePom(id: string, opts: Options, env: Env) returns (writes: seq<Write>, ok: bool)
    requires ValidEnv(env)
    ensures Run(writes, ok) == Update(id, opts, env)
  {
    var pom: Model;
    if env.child.Some? {
      match env.child.value
      case Unreadable =>
        return [], false;
      case Readable(p) =>
        pom := new Model(p);
    } else {
      pom := new Model(env.newPom);
    }
    var parsed := ParseId(id, pom, env.absoluteDir);
    if !parsed {
      return [], false;
    }
    if opts.packaging.Some? {
      pom.packaging := opts.packaging.value;
    }
    writes := [];
    if opts.addModule && !opts.standalone {
      var registered;
      writes, registered := EnsureParentPomHasThisModule(pom, env.canonicalDir, env.files, env.readOnly);
      if !registered {
        return writes, false;
      }
    }
    if ChildPom in env.readOnly {
      return writes, false;
    }
    writes := writes + [Write(ChildPom, pom.Value())];
    ok := true;
  }

  /**
   * call: with a token, update and print the id read back from the file
   * just written (exit 0); without one, print the existing file's id
   * (exit 0) or report that there is no file (exit 1, nothing written).
   */
  method Call(opts: Options, env: Env) returns (r: Outcome)
    requires ValidEnv(env)
    ensures r.Exit? && r.code != 0 <==> opts.id.None? && env.child.None?
    ensures r.Exit? && r.code != 0 ==> r == Exit(1, [], None)
    ensures opts.id.None? ==> r.writes == []
    ensures opts.id.None? && env.child.Some? ==>
              r == if env.child.value.Readable? then Exit(0, [], Some(ProjectId(env.child.value.pom))) else Aborted([])
    ensures opts.id.Some? ==>
              r.writes == Update(opts.id.value, opts, env).writes && (r.Exit? <==> Update(opts.id.value, opts, env).ok)
    ensures opts.id.Some? && r.Exit? ==>
              r.code == 0 && r.summary == Some(ProjectId(UpdatedChild(opts.id.value, opts, env).value))
  {
    if opts.id.Some? {
      r := UpdateAndReport(opts.id.value, opts, env);
    } else if env.child.None? {
      r := Exit(1, [], None);
    } else {
      match env.child.value
      case Unreadable =>
        r := Aborted([]);
      case Readable(p) =>
        r := Exit(0, [], Some(ProjectId(p)));
    }
  }

  /** The token branch of call: updatePom, then readProjectId on the file written last. */
  method UpdateAndReport(id: string, opts: Options, env: Env) returns (r: Outcome)
    requires ValidEnv(env)
    ensures r.writes == Update(id, opts, env).writes
    ensures r.Exit? <==> Update(id, opts, env).ok
    ensures r.Exit? ==> r.code == 0 && r.summary == Some(ProjectId(UpdatedChild(id, opts, env).value))
  {
    var writes, ok := UpdatePom(id, opts, env);
    if !ok {
      return Aborted(writes);
    }
    // readProjectId reads back the POM file that was written last
    var written := writes[|writes| - 1].pom;
    r := Exit(0, writes, Some(ProjectId(written)));
  }
}

=== FILE: identity_parser.dfy ===
/**
 * IdCommand.parseId: a `group:artifact[:version]` token applied to the
 * POM's coordinates, with a "." artifact replaced by the name of the
 * directory that holds the POM file.
 */
module IdentityParser {
  import opened Wrappers
  import opened Strings
  import opened Paths
  import opened MavenModel

  /** The POM file's absolute path has no parent directory name (it sits at the root). */
  datatype IdError = NoDirectoryName

  /** The artifact piece of a token: piece 1 of two or more, else piece 0. */
  function ArtifactPiece(token: string): string {
    var parts := SplitLimit3(token, ':');
    if |parts| >= 2 then parts[1] else parts[0]
  }

  /**
   * The directory name exactly as `pomPath.toAbsolutePath().getParent().getFileName()`
   * gives it: toAbsolutePath does not normalize, so the last name may be "." or "..".
   */
  function DirNameAsWritten(absDir: seq<string>): (r: Option<string>)
    ensures r.Some? <==> absDir != []
    ensures r.Some? ==> r.value == absDir[|absDir| - 1]
    ensures r.Some? && Named(absDir) ==> r.value != "" && '/' !in r.value
  {
    if absDir == [] then None else Some(absDir[|absDir| - 1])
  }

  /**
   * The name of the directory that holds the POM: the last name of the
   * absolute directory once "." and ".." are collapsed; None at the root.
   */
  function DirName(absDir: seq<string>): (r: Option<string>)
    ensures Named(absDir) && r.Some? ==> IsName(r.value)
    ensures Clean(absDir) ==> r == DirNameAsWritten(absDir)
  {
    var dir := Normalize(absDir);
    assert Clean(absDir) ==> dir == absDir by {
      if Clean(absDir) { NormalizeClean(absDir); }
    }
    if dir == [] then None else Some(dir[|dir| - 1])
  }

  /**
   * parseId on a POM value. `dirName` is the name that replaces a "."
   * artifact (None when the POM's directory has no name).
   */
  function IdApplied(d: Pom, token: string, dirName: Option<string>): (r: Result<Pom, IdError>)
    ensures r.Err? <==> ArtifactPiece(token) == "." && dirName.None?
    ensures r.Ok? ==> r.value.packaging == d.packaging && r.value.parent == d.parent && r.value.modules == d.modules
    ensures r.Ok? ==> r.value.artifactId.Some?
    ensures r.Ok? && d.parent.Some? && |SplitLimit3(token, ':')| < 3 ==> r.value.version.None?
  {
    var parts := SplitLimit3(token, ':');
    var groupId := if |parts| >= 2 then Some(parts[0]) else d.groupId;
    var version := if |parts| >= 3 then Some(parts[2]) else if d.parent.Some? then None else d.version;
    var artifact := ArtifactPiece(token);
    if artifact != "." then
      Ok(d.(groupId := groupId, artifactId := Some(artifact), version := version))
    else if dirName.Some? then
      Ok(d.(groupId := groupId, artifactId := Some(dirName.value), version := version))
    else
      Err(NoDirectoryName)
  }

  /** `g:a`: group and artifact set; the version dropped under a parent, else kept. */
  lemma GroupArtifactToken(d: Pom, g: string, a: string, dirName: Option<string>)
    requires ':' !in g && ':' !in a && (a == "." ==> dirName.Some?)
    ensures IdApplied(d, g + ":" + a, dirName)
         == Ok(d.(groupId := Some(g), artifactId := Some(if a == "." then dirName.value else a),
                  version := if d.parent.Some? then None else d.version))
  {
    SplitTwo(g, a, ':');
  }

  /** `a`: only the artifact set, the group left alone; the version as for `g:a`. */
  lemma ArtifactOnlyToken(d: Pom, a: string, dirName: Option<string>)
    requires ':' !in a && (a == "." ==> dirName.Some?)
    ensures IdApplied(d, a, dirName)
         == Ok(d.(artifactId := Some(if a == "." then dirName.value else a),
                  version := if d.parent.Some? then None else d.version))
  {
    SplitOne(a, ':');
  }

  /** `g:a:v`: all three set; the version is everything after the second colon. */
  lemma FullToken(d: Pom, g: string, a: string, v: string, dirName: Option<string>)
    requires ':' !in g && ':' !in a && (a == "." ==> dirName.Some?)
    ensures IdApplied(d, g + ":" + a + ":" + v, dirName)
         == Ok(d.(groupId := Some(g), artifactId := Some(if a == "." then dirName.value else a), version := Some(v)))
  {
    SplitThree(g, a, v, ':');
  }

  /**
   * A "." artifact takes the directory's name, which is a real name (never
   * ".", ".." or empty); it fails only for a POM at the file system root.
   */
  lemma DotArtifactTakesDirName(d: Pom, token: string, absDir: seq<string>)
    requires Named(absDir) && ArtifactPiece(token) == "."
    ensures IdApplied(d, token, DirName(absDir)).Err? <==> Normalize(absDir) == []
    ensures IdApplied(d, token, DirName(absDir)).Ok? ==>
              var name := IdApplied(d, token, DirName(absDir)).value.artifactId.value;
              IsName(name) && name == Normalize(absDir)[|Normalize(absDir)| - 1]
  {
  }

  /**
   * As the command runs: a "." artifact takes the last name of the absolute
   * directory as written; it fails only when that directory is the root.
   */
  lemma DotArtifactTakesWrittenName(d: Pom, token: string, absDir: seq<string>)
    requires ArtifactPiece(token) == "."
    ensures IdApplied(d, token, DirNameAsWritten(absDir)).Err? <==> absDir == []
    ensures IdApplied(d, token, DirNameAsWritten(absDir)).Ok? ==>
              IdApplied(d, token, DirNameAsWritten(absDir)).value.artifactId == Some(absDir[|absDir| - 1])
  {
  }

  /** -f ./pom.xml: the absolute directory ends in ".", and the as-written name keeps the artifact ".". */
  lemma DotArtifactAsWritten(d: Pom)
    ensures IdApplied(d, ".", DirNameAsWritten(["home", "widget", "."])) == Ok(d.(artifactId := Some("."), version := if d.parent.Some? then None else d.version))
    ensures IdApplied(d, ".", DirName(["home", "widget", "."])) == Ok(d.(artifactId := Some("widget"), version := if d.parent.Some? then None else d.version))
  {
    SplitOne(".", ':');
    assert ["home", "widget", "."][..2] == ["home", "widget"];
    assert ["home", "widget"][..1] == ["home"];
    assert ["home"][..0] == [];
  }

  /** Applying the same token twice changes nothing the second time. */
  lemma IdAppliedIdempotent(d: Pom, token: string, dirName: Option<string>, packaging: string)
    requires IdApplied(d, token, dirName).Ok?
    ensures var d1 := IdApplied(d, token, dirName).value;
            IdApplied(d1.(packaging := packaging), token, dirName) == Ok(d1.(packaging := packaging))
  {
  }

  /** parseId itself: the setters applied to the model in place. */
  method ParseId(id: string, pom: Model, absDir: seq<string>) returns (ok: bool)
    modifies pom
    ensures ok == IdApplied(old(pom.Value()), id, DirNameAsWritten(absDir)).Ok?
    ensures ok ==> pom.Value() == IdApplied(old(pom.Value()), id, DirNameAsWritten(absDir)).value
  {
    var parts := SplitLimit3(id, ':');
    if |parts| >= 2 {
      pom.groupId := Some(parts[0]);
      pom.artifactId := Some(parts[1]);
    } else if |parts| == 1 {
      pom.artifactId := Some(parts[0]);
    }
    if |parts| >= 3 {
      pom.version := Some(parts[2]);
    } else if pom.parent.Some? {
      pom.version := None;
    }
    if pom.artifactId == Some(".") {
      var name := DirNameAsWritten(absDir);
      if name.None? {
        return false;
      }
      pom.artifactId := Some(name.value);
    }
    ok := true;
  }
}

=== FILE: maven_model.dfy ===
/**
 * The part of Maven's POM model that the identity command reads and
 * changes: the project's own coordinates, its packaging, the declared
 * parent and the list of modules.
 */
module MavenModel {
  import opened Wrappers

  /** The <parent> element; the identity command never changes it. */
  datatype Parent = Parent(groupId: Option<string>, version: Option<string>, relativePath: Option<string>)

  /** A POM as a value: what is read from a file and what is written to one. */
  datatype Pom = Pom(
    groupId: Option<string>,
    artifactId: Option<string>,
    version: Option<string>,
    packaging: string,
    parent: Option<Parent>,
    modules: seq<string>)

  /** Maven's Model object, changed in place through its setters. */
  class Model {
    var groupId: Option<string>
    var artifactId: Option<string>
    var version: Option<string>
    var packaging: string
    var parent: Option<Parent>
    var modules: seq<string>

    /** The model as it stands, as a value. */
    function Value(): Pom
      reads this
    {
      Pom(groupId, artifactId, version, packaging, parent, modules)
    }

    /** A model holding what a reader produced from a file. */
    constructor (p: Pom)
      ensures Value() == p
    {
      groupId, artifactId, version := p.groupId, p.artifactId, p.version;
      packaging, parent, modules := p.packaging, p.parent, p.modules;
    }

    /** Model.addModule: appends to the module list, duplicates and all. */
    method AddModule(m: string)
      modifies this
      ensures Value() == old(Value()).(modules := old(modules) + [m])
    {
      modules := modules + [m];
    }
  }
}

=== FILE: module_reconciler.dfy ===
/**
 * The list part of IdCommand.ensureParentPomHasThisModule: read the
 * parent POM, add the child's module id if it is not listed yet, and
 * write the parent back only then.
 */
module ModuleReconciler {
  import opened Wrappers
  import opened Paths
  import opened MavenModel
  import opened ParentLocator
  import opened Storage

  /**
   * Registration against the parent POM at `path` (normalized): fail, write
   * nothing, or write the parent once with the module id appended. `files`
   * holds the POM files by normalized absolute path (no entry: no file there); a
   * write to a target in `readOnly` fails.
   */
  function RegisterAt(path: seq<string>, canonicalDir: seq<string>, files: map<seq<string>, Stored>, readOnly: set<Target>)
    : (r: Result<Option<Write>, Failure>)
    requires Clean(path) && path != [] && Clean(canonicalDir)
    ensures path !in files ==> r == Ok(None)
    ensures r.Err? ==> path in files && (files[path].Unreadable? || ParentPom(path) in readOnly)
    ensures r.Ok? && r.value.Some? ==>
              var id := ModuleId(path, canonicalDir);
              && path in files && files[path].Readable?
              && id !in files[path].pom.modules
              && r.value.value == Write(ParentPom(path), files[path].pom.(modules := files[path].pom.modules + [id]))
    ensures r.Ok? && r.value.Some? ==> ParentPom(path) !in readOnly
    ensures path in files && files[path].Readable? && ModuleId(path, canonicalDir) in files[path].pom.modules ==> r == Ok(None)
    ensures r == Ok(None) && path in files ==>
              files[path].Readable? && ModuleId(path, canonicalDir) in files[path].pom.modules
  {
    if path !in files then Ok(None)
    else match files[path]
      case Unreadable => Err(ReadFailed)
      case Readable(before) =>
        var id := ModuleId(path, canonicalDir);
        if id in before.modules then Ok(None)
        else if ParentPom(path) in readOnly then Err(WriteFailed)
        else Ok(Some(Write(ParentPom(path), before.(modules := before.modules + [id]))))
  }

  /** The registration step for a child POM: nothing to do without a parent relativePath. */
  function Reconciliation(d: Pom, canonicalDir: seq<string>, files: map<seq<string>, Stored>, readOnly: set<Target>)
    : (r: Result<Option<Write>, Failure>)
    requires Clean(canonicalDir)
    ensures d.parent.None? || d.parent.value.relativePath.None? ==> r == Ok(None)
    ensures r.Ok? && r.value.Some? ==> r.value.value.target.ParentPom?
  {
    match ParentLocation(d, canonicalDir)
    case None => Ok(None)
    case Some(path) => RegisterAt(path, canonicalDir, files, readOnly)
  }

  /** How many times `x` occurs in `s`. */
  function Occurrences(s: seq<string>, x: string): (n: nat)
    ensures n == 0 <==> x !in s
  {
    if s == [] then 0
    else Occurrences(s[..|s| - 1], x) + (if s[|s| - 1] == x then 1 else 0)
  }

  /**
   * Registration is idempotent: after the parent has been written, a
   * second registration finds the module and writes nothing, and the
   * module is listed exactly once.
   */
  lemma RegistrationIdempotent(path: seq<string>, canonicalDir: seq<string>, files: map<seq<string>, Stored>, readOnly: set<Target>)
    requires Clean(path) && path != [] && Clean(canonicalDir)
    requires RegisterAt(path, canonicalDir, files, readOnly).Ok?
    ensures var w := RegisterAt(path, canonicalDir, files, readOnly).value;
            var files' := if w.Some? then files[w.value.target.path := Readable(w.value.pom)] else files;
            RegisterAt(path, canonicalDir, files', readOnly) == Ok(None)
    ensures var w := RegisterAt(path, canonicalDir, files, readOnly).value;
            w.Some? ==> Occurrences(w.value.pom.modules, ModuleId(path, canonicalDir)) == 1
  {
    var w := RegisterAt(path, canonicalDir, files, readOnly).value;
    if w.Some? {
      var modules := files[path].pom.modules;
      var id := ModuleId(path, canonicalDir);
      assert (modules + [id])[..|modules|] == modules;
    }
  }

  /** The registration step, run again on the files it left, writes nothing. */
  lemma ReconciliationIdempotent(d: Pom, canonicalDir: seq<string>, files: map<seq<string>, Stored>, readOnly: set<Target>)
    requires Clean(canonicalDir) && Reconciliation(d, canonicalDir, files, readOnly).Ok?
    ensures var w := Reconciliation(d, canonicalDir, files, readOnly).value;
            var files' := if w.Some? then files[w.value.target.path := Readable(w.value.pom)] else files;
            Reconciliation(d, canonicalDir, files', readOnly) == Ok(None)
  {
    if ParentLocation(d, canonicalDir).Some? {
      RegistrationIdempotent(ParentLocation(d, canonicalDir).value, canonicalDir, files, readOnly);
    }
  }

  /** ensureParentPomHasThisModule: reads the child model, changes only a parent model it loads. */
  method EnsureParentPomHasThisModule(pom: Model, canonicalDir: seq<string>, files: map<seq<string>, Stored>, readOnly: set<Target>)
    returns (written: seq<Write>, ok: bool)
    requires Clean(canonicalDir)
    ensures var r := Reconciliation(pom.Value(), canonicalDir, files, readOnly);
            ok == r.Ok? && written == (if ok && r.value.Some? then [r.value.value] else [])
  {
    ghost var d := pom.Value();
    ghost var expected := Reconciliation(d, canonicalDir, files, readOnly);
    written, ok := [], true;
    if pom.parent.Some? {
      var parentPomLocation := pom.parent.value;
      if parentPomLocation.relativePath.Some? {
        var parentPomRelativePath := parentPomLocation.relativePath.value;
        if !Strings.EndsWith(parentPomRelativePath, ".xml") {
          parentPomRelativePath := parentPomRelativePath + "/pom.xml";
        }
        assert parentPomRelativePath == WithPomSuffix(parentPomLocation.relativePath.value);
        var parentPomPath := Normalize(Resolve(canonicalDir, PathOf(parentPomRelativePath)));
        assert parentPomPath == ParentPomPath(parentPomLocation.relativePath.value, canonicalDir);
        assert ParentLocation(d, canonicalDir) == Some(parentPomPath);
        assert expected == RegisterAt(parentPomPath, canonicalDir, files, readOnly);
        if parentPomPath in files {
          match files[parentPomPath]
          case Unreadable =>
            return [], false;
          case Readable(p) =>
            var parentPom := new Model(p);
            var moduleId := ModuleId(parentPomPath, canonicalDir);
            if moduleId !in parentPom.modules {
              parentPom.AddModule(moduleId);
              assert pom.Value() == d;
              if ParentPom(parentPomPath) in readOnly {
                return [], false;
              }
              written := [Write(ParentPom(parentPomPath), parentPom.Value())];
            }
        }
      }
    }
  }
}

=== FILE: parent_locator.dfy ===
/**
 * The path part of IdCommand.ensureParentPomHasThisModule: where the
 * parent POM is looked for, and the module id under which the child is
 * listed in it.
 */
module ParentLocator {
  import opened Wrappers
  import opened Strings
  import opened Paths
  import opened MavenModel

  /** A relativePath not ending in ".xml" names a directory: "/pom.xml" is appended. */
  function WithPomSuffix(relativePath: string): (r: string)
    ensures EndsWith(r, ".xml")
    ensures EndsWith(relativePath, ".xml") ==> r == relativePath
    ensures !EndsWith(relativePath, ".xml") ==> r == relativePath + "/pom.xml"
  {
    if EndsWith(relativePath, ".xml") then relativePath else relativePath + "/pom.xml"
  }

  /**
   * canonicalDir.resolve(relativePath).normalize(): the parent POM's
   * absolute path, with nothing left to collapse, naming a ".xml" file.
   */
  function ParentPomPath(relativePath: string, canonicalDir: seq<string>): (r: seq<string>)
    requires Clean(canonicalDir)
    ensures Clean(r) && r != []
    ensures EndsWith(r[|r| - 1], ".xml")
  {
    var resolved := Resolve(canonicalDir, PathOf(WithPomSuffix(relativePath)));
    ResolvedPomName(relativePath, canonicalDir);
    Normalize(resolved)
  }

  /** Before normalisation the resolved path already ends in a ".xml" name. */
  lemma ResolvedPomName(relativePath: string, canonicalDir: seq<string>)
    requires Clean(canonicalDir)
    ensures var resolved := Resolve(canonicalDir, PathOf(WithPomSuffix(relativePath)));
            && Named(resolved) && resolved != []
            && IsName(resolved[|resolved| - 1]) && EndsWith(resolved[|resolved| - 1], ".xml")
  {
    var p := PathOf(WithPomSuffix(relativePath));
    LastNameEndsWith(WithPomSuffix(relativePath), ".xml");
    var last := p.names[|p.names| - 1];
    assert last != "" && '/' !in last;
    if !p.absolute {
      var resolved := canonicalDir + p.names;
      assert resolved[|resolved| - 1] == last;
      forall k | 0 <= k < |resolved|
        ensures resolved[k] != "" && '/' !in resolved[k]
      {
        if k >= |canonicalDir| {
          assert resolved[k] == p.names[k - |canonicalDir|];
        }
      }
    }
  }

  /** Where registration looks for the parent: None without a parent or without a relativePath. */
  function ParentLocation(d: Pom, canonicalDir: seq<string>): (r: Option<seq<string>>)
    requires Clean(canonicalDir)
    ensures r.Some? <==> d.parent.Some? && d.parent.value.relativePath.Some?
  {
    if d.parent.Some? && d.parent.value.relativePath.Some? then
      Some(ParentPomPath(d.parent.value.relativePath.value, canonicalDir))
    else
      None
  }

  /**
   * parentPomPath.getParent().relativize(canonicalDir).toString(): the
   * module id is a relative path that, resolved against the parent POM's
   * directory, leads back to the child's canonical directory.
   */
  function ModuleId(parentPomPath: seq<string>, canonicalDir: seq<string>): (id: string)
    requires Clean(parentPomPath) && parentPomPath != [] && Clean(canonicalDir)
    ensures Normalize(parentPomPath[..|parentPomPath| - 1] + Names(id)) == canonicalDir
  {
    var parentDir := parentPomPath[..|parentPomPath| - 1];
    var rel := Relativize(parentDir, canonicalDir);
    RelativizeNamed(parentDir, canonicalDir);
    NamesOfJoin(rel);
    RelativizeRoundTrip(parentDir, canonicalDir);
    Join(rel, '/')
  }

  /**
   * The usual layout, relativePath "..": the parent POM is pom.xml one
   * directory up, and the module id is the child directory's own name.
   */
  lemma ParentOneUp(canonicalDir: seq<string>)
    requires Clean(canonicalDir) && canonicalDir != []
    ensures ParentPomPath("..", canonicalDir) == canonicalDir[..|canonicalDir| - 1] + ["pom.xml"]
    ensures ModuleId(ParentPomPath("..", canonicalDir), canonicalDir) == canonicalDir[|canonicalDir| - 1]
  {
    OneUpPath(canonicalDir);
    var path := canonicalDir[..|canonicalDir| - 1] + ["pom.xml"];
    OneUpModule(canonicalDir, path);
  }

  /**
   * A child directory below the parent POM's directory is listed under its
   * relative path: the names under the parent joined with '/'.
   */
  lemma ModuleIdBelow(parentDir: seq<string>, below: seq<string>)
    requires Clean(parentDir + ["pom.xml"]) && Clean(parentDir + below)
    ensures ModuleId(parentDir + ["pom.xml"], parentDir + below) == Join(below, '/')
  {
    var path := parentDir + ["pom.xml"];
    assert path[..|path| - 1] == parentDir;
    RelativizeDescend(parentDir, below);
  }

  lemma OneUpPath(canonicalDir: seq<string>)
    requires Clean(canonicalDir) && canonicalDir != []
    ensures ParentPomPath("..", canonicalDir) == canonicalDir[..|canonicalDir| - 1] + ["pom.xml"]
  {
    var parentDir := canonicalDir[..|canonicalDir| - 1];
    var up := canonicalDir + Ups(1);
    OneUpNames();
    assert Ups(1) == [".."];
    assert Resolve(canonicalDir, PathOf(WithPomSuffix(".."))) == up + ["pom.xml"];
    NormalizeUps(canonicalDir, 1);
    assert Normalize(up) == parentDir;
    NormalizeAppend(up, ["pom.xml"]);
  }

  /** ".." names a directory: it becomes the relative path "../pom.xml". */
  lemma OneUpNames()
    ensures PathOf(WithPomSuffix("..")) == Path(false, ["..", "pom.xml"])
  {
    var s := WithPomSuffix("..");
    assert s == Join(["..", "pom.xml"], '/');
    NamesOfJoin(["..", "pom.xml"]);
  }

  lemma OneUpModule(canonicalDir: seq<string>, path: seq<string>)
    requires Clean(canonicalDir) && canonicalDir != []
    requires path == canonicalDir[..|canonicalDir| - 1] + ["pom.xml"]
    ensures Clean(path)
    ensures ModuleId(path, canonicalDir) == canonicalDir[|canonicalDir| - 1]
  {
    var parentDir := path[..|path| - 1];
    assert parentDir == canonicalDir[..|canonicalDir| - 1];
    var k := CommonPrefix(parentDir, canonicalDir);
    assert k == |parentDir|;
    assert Relativize(parentDir, canonicalDir) == [canonicalDir[|canonicalDir| - 1]];
  }

  /**
   * An empty relativePath (Maven's way to say "no local parent") becomes
   * the absolute "/pom.xml": the lookup goes to the file system root.
   */
  lemma EmptyRelativePathLooksAtRoot(canonicalDir: seq<string>)
    requires Clean(canonicalDir)
    ensures ParentPomPath("", canonicalDir) == ["pom.xml"]
  {
    RootNames();
    NormalizeClean(["pom.xml"]);
  }

  /** An empty relativePath becomes the absolute path "/pom.xml". */
  lemma RootNames()
    ensures PathOf(WithPomSuffix("")) == Path(true, ["pom.xml"])
  {
    var s := WithPomSuffix("");
    assert s == "/pom.xml";
    assert s[1..] == "pom.xml" && '/' !in s[1..];
    assert LastIndexOf(s, '/') == Some(0);
    assert Names(s[..0]) == [];
  }
}

=== FILE: paths.dfy ===
/**
 * java.nio.file paths with '/' as the separator, as absolute or relative
 * sequences of names: parsing a path string, resolve, normalize and
 * relativize, and the string form of a relative path.
 */
module Paths {
  import opened Wrappers
  import opened Strings

  /** The last index of `c` in `s`, or None (String.lastIndexOf returning -1). */
  function LastIndexOf(s: string, c: char): (r: Option<nat>)
    ensures r.None? <==> c !in s
    ensures r.Some? ==> r.value < |s| && s[r.value] == c && c !in s[r.value + 1..]
  {
    if s == [] then None
    else if s[|s| - 1] == c then Some(|s| - 1)
    else
      var r := LastIndexOf(s[..|s| - 1], c);
      assert s == s[..|s| - 1] + [s[|s| - 1]];
      r
  }

  /** A name as a parsed path holds it: not empty, no separator. */
  predicate Named(names: seq<string>) {
    forall k :: 0 <= k < |names| ==> names[k] != "" && '/' !in names[k]
  }

  predicate IsName(x: string) {
    x != "" && x != "." && x != ".." && '/' !in x
  }

  /** A normalized path: no empty, "." or ".." names. */
  predicate Clean(names: seq<string>) {
    forall k :: 0 <= k < |names| ==> IsName(names[k])
  }

  /**
   * The names of a path string as UnixPath parses it: the pieces between
   * separators, with redundant and trailing separators dropped.
   */
  function Names(s: string): (r: seq<string>)
    ensures Named(r)
    decreases |s|
  {
    match LastIndexOf(s, '/')
    case None => if s == "" then [] else [s]
    case Some(i) => Names(s[..i]) + (if i + 1 == |s| then [] else [s[i + 1..]])
  }

  /** Parsing the string form of a relative path gives back its names. */
  lemma {:induction false} NamesOfJoin(names: seq<string>)
    requires Named(names)
    ensures Names(Join(names, '/')) == names
  {
    if |names| == 1 {
      assert Join(names, '/') == names[0];
    } else if |names| > 1 {
      var init, last := names[..|names| - 1], names[|names| - 1];
      var j := Join(init, '/');
      var s := Join(names, '/');
      assert s == j + ['/'] + last;
      assert s[|j|] == '/';
      assert s[..|j|] == j && s[|j| + 1..] == last;
      NamesOfJoin(init);
      assert names == init + [last];
    }
  }

  /** A path string ending in `suffix` has a last name that ends in it. */
  lemma LastNameEndsWith(s: string, suffix: string)
    requires EndsWith(s, suffix) && suffix != "" && '/' !in suffix
    ensures Names(s) != [] && EndsWith(Names(s)[|Names(s)| - 1], suffix)
  {
    NoSeparatorInTail(s, suffix);
    match LastIndexOf(s, '/')
    case None =>
      assert Names(s) == [s];
    case Some(i) =>
      assert s[i] == '/' && i < |s| - |suffix|;
      assert Names(s) == Names(s[..i]) + [s[i + 1..]];
      SuffixOfTail(s, suffix, i + 1);
  }

  lemma SuffixOfTail(s: string, suffix: string, start: nat)
    requires EndsWith(s, suffix) && start <= |s| - |suffix|
    ensures EndsWith(s[start..], suffix)
  {
    assert s[start..][|s| - start - |suffix|..] == s[|s| - |suffix|..];
  }

  /** A suffix without separators leaves none at the end of the string. */
  lemma NoSeparatorInTail(s: string, suffix: string)
    requires EndsWith(s, suffix) && '/' !in suffix
    ensures forall j :: |s| - |suffix| <= j < |s| ==> s[j] != '/'
  {
    forall j | |s| - |suffix| <= j < |s|
      ensures s[j] != '/'
    {
      assert s[j] == suffix[j - (|s| - |suffix|)];
    }
  }

  datatype Path = Path(absolute: bool, names: seq<string>)

  /** Path.of(s) on a Unix file system. */
  function PathOf(s: string): (r: Path)
    ensures r.absolute <==> |s| > 0 && s[0] == '/'
    ensures Named(r.names)
    ensures '/' !in s ==> r.names == (if s == "" then [] else [s])
  {
    Path(|s| > 0 && s[0] == '/', Names(s))
  }

  /** base.resolve(p) for an absolute base: an absolute p replaces it, a relative one is appended. */
  function Resolve(base: seq<string>, p: Path): (r: seq<string>)
    ensures p.absolute ==> r == p.names
    ensures !p.absolute ==> |r| == |base| + |p.names| && r[..|base|] == base && r[|base|..] == p.names
  {
    if p.absolute then p.names else base + p.names
  }

  /**
   * Path.normalize() on an absolute path: "." names are dropped, ".."
   * removes the name before it, and ".." at the root is dropped.
   */
  function Normalize(names: seq<string>): (r: seq<string>)
    ensures Named(names) ==> Clean(r)
    ensures |r| <= |names|
  {
    if names == [] then []
    else
      var front := Normalize(names[..|names| - 1]);
      var last := names[|names| - 1];
      if last == "." then front
      else if last == ".." then (if front == [] then [] else front[..|front| - 1])
      else front + [last]
  }

  lemma {:induction false} NormalizeClean(names: seq<string>)
    requires Clean(names)
    ensures Normalize(names) == names
  {
    if names != [] {
      NormalizeClean(names[..|names| - 1]);
      assert names == names[..|names| - 1] + [names[|names| - 1]];
    }
  }

  /** Normalizing is idempotent: a normalized path has nothing left to collapse. */
  lemma NormalizeIdempotent(names: seq<string>)
    requires Named(names)
    ensures Normalize(Normalize(names)) == Normalize(names)
  {
    NormalizeClean(Normalize(names));
  }

  /** Clean names appended after a path are kept as they are. */
  lemma {:induction false} NormalizeAppend(p: seq<string>, q: seq<string>)
    requires Clean(q)
    ensures Normalize(p + q) == Normalize(p) + q
  {
    if q == [] {
      assert p + q == p;
    } else {
      var init := q[..|q| - 1];
      NormalizeAppend(p, init);
      assert (p + q)[..|p + q| - 1] == p + init;
    }
  }

  /** n times "..". */
  function Ups(n: nat): (r: seq<string>)
    ensures |r| == n
    ensures forall k :: 0 <= k < n ==> r[k] == ".."
  {
    if n == 0 then [] else Ups(n - 1) + [".."]
  }

  /** n ".." names after a clean path remove its last n names. */
  lemma {:induction false} NormalizeUps(a: seq<string>, n: nat)
    requires Clean(a) && n <= |a|
    ensures Normalize(a + Ups(n)) == a[..|a| - n]
  {
    if n == 0 {
      NormalizeClean(a);
      assert a + Ups(0) == a && a[..|a|] == a;
    } else {
      NormalizeUps(a, n - 1);
      assert (a + Ups(n))[..|a| + n - 1] == a + Ups(n - 1);
      assert a[..|a| - n + 1][..|a| - n] == a[..|a| - n];
    }
  }

  /** The length of the longest common prefix of two paths. */
  function CommonPrefix(a: seq<string>, b: seq<string>): (k: nat)
    ensures k <= |a| && k <= |b| && a[..k] == b[..k]
    ensures k < |a| && k < |b| ==> a[k] != b[k]
  {
    if a == [] || b == [] || a[0] != b[0] then 0
    else
      var k := CommonPrefix(a[1..], b[1..]);
      assert a[..k + 1] == [a[0]] + a[1..][..k];
      assert b[..k + 1] == [b[0]] + b[1..][..k];
      k + 1
  }

  /** from.relativize(to): climb out of what `from` does not share with `to`, then descend. */
  function Relativize(from: seq<string>, to: seq<string>): (r: seq<string>)
    ensures |r| == |from| + |to| - 2 * CommonPrefix(from, to)
    ensures r == [] <==> from == to
  {
    var k := CommonPrefix(from, to);
    Ups(|from| - k) + to[k..]
  }

  /** A relativized path between normalized paths holds only ".." and proper names. */
  lemma RelativizeNamed(from: seq<string>, to: seq<string>)
    requires Clean(to)
    ensures Named(Relativize(from, to))
    ensures forall i :: 0 <= i < |Relativize(from, to)| ==> Relativize(from, to)[i] == ".." || IsName(Relativize(from, to)[i])
  {
    var k := CommonPrefix(from, to);
    var up, down := Ups(|from| - k), to[k..];
    assert Clean(down);
    forall i | 0 <= i < |up + down|
      ensures (up + down)[i] != "" && '/' !in (up + down)[i]
      ensures (up + down)[i] == ".." || IsName((up + down)[i])
    {
      if i >= |up| {
        assert (up + down)[i] == down[i - |up|];
      }
    }
  }

  /**
   * Relativize is the inverse of resolve: resolving the relative path
   * against `from` and normalizing leads back to `to`.
   */
  lemma RelativizeRoundTrip(from: seq<string>, to: seq<string>)
    requires Clean(from) && Clean(to)
    ensures Normalize(from + Relativize(from, to)) == to
  {
    ClimbThenDescend(from, to, CommonPrefix(from, to));
  }

  /** Climbing out of `from` down to a prefix it shares with `to`, then descending, reaches `to`. */
  lemma ClimbThenDescend(from: seq<string>, to: seq<string>, k: nat)
    requires Clean(from) && Clean(to) && k <= |from| && k <= |to| && from[..k] == to[..k]
    ensures Normalize(from + (Ups(|from| - k) + to[k..])) == to
  {
    CleanSuffix(to, k);
    NormalizeClimb(from, |from| - k, to[k..]);
    SharedPrefixThenRest(from, to, k);
  }

  /**
   * The other direction: a path below `from` relativizes to the names
   * under it, with no "..".
   */
  lemma RelativizeDescend(from: seq<string>, below: seq<string>)
    ensures Relativize(from, from + below) == below
  {
    assert forall i :: 0 <= i < |from| ==> (from + below)[i] == from[i];
    assert (from + below)[|from|..] == below;
  }

  /** Climbing n levels out of a clean path and descending into clean names. */
  lemma NormalizeClimb(a: seq<string>, n: nat, down: seq<string>)
    requires Clean(a) && n <= |a| && Clean(down)
    ensures Normalize(a + (Ups(n) + down)) == a[..|a| - n] + down
  {
    AppendAssoc(a, Ups(n), down);
    NormalizeAppend(a + Ups(n), down);
    NormalizeUps(a, n);
  }

  lemma SharedPrefixThenRest(from: seq<string>, to: seq<string>, k: nat)
    requires k <= |from| && k <= |to| && from[..k] == to[..k]
    ensures from[..|from| - (|from| - k)] + to[k..] == to
  {
    assert to[..k] + to[k..] == to;
  }

  lemma AppendAssoc(a: seq<string>, b: seq<string>, c: seq<string>)
    ensures a + (b + c) == (a + b) + c
  {
  }

  lemma CleanSuffix(names: seq<string>, k: nat)
    requires Clean(names) && k <= |names|
    ensures Clean(names[k..])
  {
    forall i | 0 <= i < |names| - k
      ensures IsName(names[k..][i])
    {
      assert names[k..][i] == names[k + i];
    }
  }

}

=== FILE: project_summary.dfy ===
/**
 * IdCommand.readProjectId: the `packaging group:artifact:version` line,
 * with group and version inherited from the <parent> when the POM does
 * not declare its own.
 */
module ProjectSummary {
  import opened Wrappers
  import opened Strings
  import opened MavenModel
  import opened IdentityParser

  /** Java's string conversion of a possibly-null String: null prints as "null". */
  function Text(o: Option<string>): string {
    match o
    case Some(s) => s
    case None => "null"
  }

  /** The POM's own groupId, else the parent's; absent when neither has one. */
  function EffectiveGroup(d: Pom): (g: Option<string>)
    ensures g.Some? <==> d.groupId.Some? || (d.parent.Some? && d.parent.value.groupId.Some?)
    ensures d.groupId.Some? ==> g == d.groupId
    ensures d.groupId.None? && g.Some? ==> g == d.parent.value.groupId
  {
    if d.groupId.None? && d.parent.Some? then d.parent.value.groupId else d.groupId
  }

  /** The POM's own version, else the parent's; absent when neither has one. */
  function EffectiveVersion(d: Pom): (v: Option<string>)
    ensures v.Some? <==> d.version.Some? || (d.parent.Some? && d.parent.value.version.Some?)
    ensures d.version.Some? ==> v == d.version
    ensures d.version.None? && v.Some? ==> v == d.parent.value.version
  {
    if d.version.None? && d.parent.Some? then d.parent.value.version else d.version
  }

  /** `g:a:v` with the effective group and version; a missing value prints as "null". */
  function Coordinates(d: Pom): (r: string)
    ensures r == Join([Text(EffectiveGroup(d)), Text(d.artifactId), Text(EffectiveVersion(d))], ':')
  {
    JoinThree(Text(EffectiveGroup(d)), Text(d.artifactId), Text(EffectiveVersion(d)), ':');
    Text(EffectiveGroup(d)) + ":" + Text(d.artifactId) + ":" + Text(EffectiveVersion(d))
  }

  /** The line `id` prints for a POM. */
  function ProjectId(d: Pom): (r: string)
    ensures |r| > |d.packaging| && r[..|d.packaging|] == d.packaging && r[|d.packaging|] == ' '
    ensures r[|d.packaging| + 1..] == Coordinates(d)
  {
    var r := d.packaging + " " + Coordinates(d);
    assert r[..|d.packaging|] == d.packaging;
    assert r[|d.packaging| + 1..] == Coordinates(d);
    r
  }

  /**
   * The printed coordinates read back with split(":", 3) into the
   * effective group, the artifact and the effective version.
   */
  lemma CoordinatesSplit(d: Pom)
    requires ':' !in Text(EffectiveGroup(d)) && ':' !in Text(d.artifactId)
    ensures SplitLimit3(Coordinates(d), ':') == [Text(EffectiveGroup(d)), Text(d.artifactId), Text(EffectiveVersion(d))]
  {
    SplitThree(Text(EffectiveGroup(d)), Text(d.artifactId), Text(EffectiveVersion(d)), ':');
  }

  /**
   * Feeding the printed coordinates back to `id` as a token leaves the
   * printed line unchanged (an inherited group or version becomes the
   * POM's own, with the same value).
   */
  lemma SummaryStable(d: Pom, dirName: Option<string>)
    requires ':' !in Text(EffectiveGroup(d)) && ':' !in Text(d.artifactId)
    requires d.artifactId != Some(".")
    ensures IdApplied(d, Coordinates(d), dirName).Ok?
    ensures ProjectId(IdApplied(d, Coordinates(d), dirName).value) == ProjectId(d)
  {
    var g, a, v := Text(EffectiveGroup(d)), Text(d.artifactId), Text(EffectiveVersion(d));
    FullToken(d, g, a, v, dirName);
    var d1 := IdApplied(d, Coordinates(d), dirName).value;
    assert d1.artifactId == Some(a) && Text(d1.artifactId) == Text(d.artifactId);
  }
}

=== FILE: storage.dfy ===
/**
 * The file system as the identity command sees it: POM files that the
 * Maven reader accepts or rejects, and a log of the POMs written.
 */
module Storage {
  import opened MavenModel

  /** What a POM file holds: a model the reader accepts, or content it rejects. */
  datatype Stored = Readable(pom: Pom) | Unreadable

  /** A file the command writes: the POM it was given, or a parent POM by its normalized absolute path. */
  datatype Target = ChildPom | ParentPom(path: seq<string>)

  datatype Write = Write(target: Target, pom: Pom)

  /** The I/O errors that abort the command (UncheckedIOException). */
  datatype Failure = ReadFailed | WriteFailed
}

=== FILE: strings.dfy ===
/**
 * The few operations of java.lang.String the identity command relies on:
 * indexOf, endsWith and split with a limit of three pieces.
 */
module Strings {
  import opened Wrappers

  /** The first index of `c` in `s`, or None (String.indexOf returning -1). */
  function IndexOf(s: string, c: char): (r: Option<nat>)
    ensures r.None? <==> c !in s
    ensures r.Some? ==> r.value < |s| && s[r.value] == c && c !in s[..r.value]
  {
    if s == [] then None
    else if s[0] == c then Some(0)
    else match IndexOf(s[1..], c)
      case None => None
      case Some(i) =>
        assert s[..i + 1] == [s[0]] + s[1..][..i];
        Some(i + 1)
  }

  /** The first occurrence is the only one with no earlier occurrence. */
  lemma IndexOfAfterPrefix(prefix: string, c: char, rest: string)
    requires c !in prefix
    ensures IndexOf(prefix + [c] + rest, c) == Some(|prefix|)
  {
    var s := prefix + [c] + rest;
    assert s[|prefix|] == c;
    assert forall k :: 0 <= k < |prefix| ==> s[k] == prefix[k];
  }

  predicate EndsWith(s: string, suffix: string) {
    |suffix| <= |s| && s[|s| - |suffix|..] == suffix
  }

  /** The pieces joined with `sep` between them. */
  function Join(pieces: seq<string>, sep: char): string {
    if pieces == [] then ""
    else if |pieces| == 1 then pieces[0]
    else Join(pieces[..|pieces| - 1], sep) + [sep] + pieces[|pieces| - 1]
  }

  lemma JoinTwo(a: string, b: string, sep: char)
    ensures Join([a, b], sep) == a + [sep] + b
  {
    assert [a, b][..1] == [a];
  }

  lemma JoinThree(a: string, b: string, c: string, sep: char)
    ensures Join([a, b, c], sep) == a + [sep] + b + [sep] + c
  {
    assert [a, b, c][..2] == [a, b];
    JoinTwo(a, b, sep);
  }

  /**
   * Java's s.split(sep, 3) for a one-character separator: at most two
   * separators are cut, the last piece keeps any further separators, and
   * empty pieces (leading, inner and trailing) are kept.
   */
  function SplitLimit3(s: string, sep: char): (r: seq<string>)
    ensures 1 <= |r| <= 3
    ensures Join(r, sep) == s
    ensures forall k :: 0 <= k < |r| - 1 ==> sep !in r[k]
    ensures |r| < 3 ==> sep !in r[|r| - 1]
  {
    var first := IndexOf(s, sep);
    if first.None? then [s]
    else
      var i := first.value;
      var rest := s[i + 1..];
      var second := IndexOf(rest, sep);
      if second.None? then
        CutOnce(s, i, sep);
        [s[..i], rest]
      else
        var j := second.value;
        CutTwice(s, i, j, sep);
        [s[..i], rest[..j], rest[j + 1..]]
  }

  lemma CutOnce(s: string, i: nat, sep: char)
    requires i < |s| && s[i] == sep
    ensures Join([s[..i], s[i + 1..]], sep) == s
  {
    JoinTwo(s[..i], s[i + 1..], sep);
    assert s == s[..i] + [sep] + s[i + 1..];
  }

  lemma CutTwice(s: string, i: nat, j: nat, sep: char)
    requires i < |s| && s[i] == sep
    requires j < |s[i + 1..]| && s[i + 1..][j] == sep
    ensures Join([s[..i], s[i + 1..][..j], s[i + 1..][j + 1..]], sep) == s
  {
    var rest := s[i + 1..];
    JoinThree(s[..i], rest[..j], rest[j + 1..], sep);
    assert rest == rest[..j] + [sep] + rest[j + 1..];
    assert s == s[..i] + [sep] + rest;
  }

  lemma SplitOne(a: string, sep: char)
    requires sep !in a
    ensures SplitLimit3(a, sep) == [a]
  {
  }

  lemma SplitTwo(g: string, a: string, sep: char)
    requires sep !in g && sep !in a
    ensures SplitLimit3(g + [sep] + a, sep) == [g, a]
  {
    var s := g + [sep] + a;
    IndexOfAfterPrefix(g, sep, a);
    assert s[..|g|] == g && s[|g| + 1..] == a;
  }

  /** A token with three or more pieces: the third piece is everything after the second separator. */
  lemma SplitThree(g: string, a: string, v: string, sep: char)
    requires sep !in g && sep !in a
    ensures SplitLimit3(g + [sep] + a + [sep] + v, sep) == [g, a, v]
  {
    var s := g + [sep] + a + [sep] + v;
    assert s == g + [sep] + (a + [sep] + v);
    IndexOfAfterPrefix(g, sep, a + [sep] + v);
    var rest := s[|g| + 1..];
    assert rest == a + [sep] + v;
    IndexOfAfterPrefix(a, sep, v);
    assert s[..|g|] == g;
    assert rest[..|a|] == a && rest[|a| + 1..] == v;
  }
}

=== FILE: wrappers.dfy ===
/** Optional values (Java's nullable references) and results with an error. */
module Wrappers {

  datatype Option<+T> = None | Some(value: T)

  datatype Result<+T, +E> = Ok(value: T) | Err(error: E)
}
